=== FILE: README.md ===
# Overhand engine game rules in Dafny

This project models the rules of a browser arcade shooter. The player's sprite moves along the bottom and fires bullets upward. Enemies of four kinds (normal, fast, tank, explosive) descend from the top. A destroyed enemy is worth 5 xp and 10 points, and an enemy that reaches the bottom costs the player one hp. The source keeps its state in the page's DOM. Here it is one immutable `Game.Session` record of integer positions and counters, and every event is a pure step function:

- `Progression`: the player's stats, the single-threshold level-up of `gainXP` and the derived treadmill speed.
- `Entities`: the kind table (hit points and descent speed), enemies, bullets and the strict box-overlap test.
- `Arrays`: `splice(i, 1)` on sequences.
- `Descent`: `moveEnemies`, one tick of descent and bottom-edge damage.
- `Combat`: `moveBullets`, one tick of bullet movement, collision tests and hit resolution.
- `Frames`: the `gameLoop` frame requests and the pause toggle.
- `Game`: the session record, `gameLoop`, spawning, firing and the drag clamp, plus the invariants every event keeps.

Both per-tick loops in the source are `forEach` walks that `splice` the array they are walking. The model keeps those index loops as written (`Descent.Visit`, `Combat.Volley`, `Combat.Sweep`). The element that slides into a freed slot is stepped over for that tick: it is not moved and not tested. `Descent.Walk` states the same thing by structural recursion, and `Descent.VisitIsWalk` proves the two agree. `Descent.Filter` is the survivor-filter pass that visits every enemy. `Descent.WalkAgreesWithFilter` gives a sufficient condition for the two to coincide. For bullets, `Combat.Fly` is the structural walk of a tick without a hit, and `Combat.MoveBulletsWithoutHits` proves the index loop equals it. After a hit, `Combat.VolleyHitStep` shows the outer walk resuming one index past the spliced bullet. `Descent.WalkUndercounts` shows that the skip only ever spares the player hp, and `Descent.TwoAtBottomExample`, `Combat.OffscreenSkipExample` and `Combat.HitSkipExample` show concrete cases where the skip happens.

The inner collision walk has no `break`, so a bullet is still tested after it was removed. A browser reports a removed node's box as the empty box at the origin (`Entities.Detached`). That box meets no enemy inside the container, so a bullet hits at most once and removes only its own slot (`Combat.SweepHitsAtMostOnce`, `Combat.VolleyOneHpPerBullet`). The enemy it hits is the first one, in array order, whose box overlaps the bullet's (`Combat.SweepStrikesFirst`), and no other enemy changes (`Combat.StrikeHitsItsTarget`).

Notes on the code's behaviour:

- `gainXP` tests the threshold once, with an `if`. One call raises the level by at most one and discards the excess xp (`Progression.OneLevelPerGain`, `Progression.GainDiscardsRemainder`).
- The bottom test uses an enemy's top from before the tick's move. Likewise, the off-screen test uses a bullet's top from before its move.
- Three hits on a fresh normal enemy destroy it for one kill. That gives 5 xp (no level-up, since the first threshold is 10) and 10 points (`Combat.ThreeHitsDestroyNormal`).
- Spawning goes on while the game is paused (`Game.OnSpawn` ignores the pause flag).
- The kind thresholds are the binary64 values of the literals 0.3, 0.5 and 0.7, compared exactly; the stored 0.3 and 0.7 lie just below the decimals (`Entities.KindForAtLiterals`).

## Model

| member | source | states |
|---|---|---|
| Progression.GainXP | js/game.js:38-51 | the level rises by one exactly when xp + amount reaches the threshold; then xp is 0, the threshold grows by 10 and the treadmill is set from the new level; otherwise only xp changes; hp is never touched |
| Progression.GainBelowThreshold | js/game.js:39-40 | below the threshold a gain adds to xp and changes nothing else |
| Progression.GainZeroIsIdentity | js/game.js:38-43 | gaining 0 xp leaves a normalised record unchanged |
| Progression.GainKeepsConsistent | js/game.js:38-49 | a non-negative gain keeps 0 <= xp < threshold, the threshold at ten per level, and the treadmill value in step with the level |
| Progression.GainDiscardsRemainder | js/game.js:40-43 | a gain changes the run's total xp by the amount, minus exactly the excess past the threshold when it levels up |
| Progression.OneLevelPerGain | js/game.js:40-43 | even a gain of twice the threshold raises the level by exactly one and leaves xp at 0 |
| Progression.TreadmillSpeed | js/game.js:45-48 | the treadmill speed is never below 5 seconds and is either 5 or 15 - level |
| Progression.TreadmillNonIncreasing | js/game.js:47 | a higher level never gets a slower treadmill |
| Progression.TreadmillFloor | js/game.js:47 | from level 10 on the treadmill stays at 5 seconds |
| Arrays.Splice | js/game.js:131 | removing index i shortens the array by one and shifts later elements down; an index past the end changes nothing |
| Entities.MaxHpOf | js/game.js:87-106 | every kind starts with between 1 and 5 hit points |
| Entities.SpeedOf | js/game.js:118-124 | every kind descends by a positive number of pixels per tick |
| Entities.KindFor | js/game.js:82-101 | a roll in [0, 1) selects normal below the stored 0.3, fast from there below 0.5, tank from 0.5 below the stored 0.7, explosive from the stored 0.7 on, the thresholds being the binary64 values of the literals |
| Entities.KindForAtLiterals | js/game.js:87-96 | the stored 0.3 and 0.7 lie below the decimals; a roll equal to the stored 0.7 is explosive, one equal to the stored 0.3 is fast, and the double just below the stored 0.7 is tank |
| Entities.Spawn | js/game.js:87-109 | a spawned enemy has its kind's table hp as both hp and maxHp, sits at top 0 and at the given left edge |
| Entities.SpawnTable | js/game.js:87-109 | normal 3, fast 1, tank 5, explosive 2 hp; every spawned enemy at a non-negative left edge is well formed |
| Entities.Descend | js/game.js:117-124 | descent changes only the top, strictly increasing it, and keeps an enemy well formed |
| Entities.DescentTable | js/game.js:118-124 | fast enemies fall 4 pixels, tanks 1, normal and explosive enemies 2 |
| Entities.AtBottom | js/game.js:127 | an enemy is at the bottom when its top before the move plus 50 reaches the container's height |
| Entities.Overlap | js/game.js:169-173 | a bullet's box and an enemy's box collide when each starts strictly before the other ends, horizontally and vertically |
| Entities.OverlapSymmetric | js/game.js:169-173 | the collision test gives the same answer with its two boxes swapped |
| Entities.TouchingDoesNotOverlap | js/game.js:169-173 | boxes that share only an edge do not collide |
| Entities.OverlapSharesPixel | js/game.js:169-173 | two non-empty boxes collide exactly when some pixel lies in both |
| Entities.DetachedHitsNothing | js/game.js:166-173 | the box of a removed bullet collides with no enemy whose left edge is inside the container |
| Descent.Visit | js/game.js:115-139 | the forEach walk removes some enemies and charges exactly one hp for each enemy removed |
| Descent.MoveEnemies | js/game.js:115-139 | a tick of descent never adds enemies and lowers hp by exactly the number of enemies removed |
| Descent.Walk | js/game.js:116-131 | an enemy is either kept (moved, or stepped over after a removal) or counted as a bottom hit, never both |
| Descent.Filter | js/game.js:127-131 | the intended pass keeps or counts every enemy exactly once |
| Descent.VisitIsWalk | js/game.js:116-138 | the index loop equals the structural walk, with hp lowered by the hit count and the alert raised exactly when there was a hit and hp ended at or below 0 |
| Descent.MoveEnemiesCharges | js/game.js:127-136 | after moveEnemies, each enemy gone cost exactly one hp, and game over is signalled exactly when an enemy reached the bottom and hp is at or below 0 |
| Descent.WalkAgreesWithFilter | js/game.js:116-131 | a sufficient condition: when no enemy before the last is at the bottom, the as-written pass equals the survivor filter |
| Descent.WalkUndercounts | js/game.js:127-131 | the as-written pass never charges more bottom hits than the intended one |
| Descent.WalkKeepsWellFormed | js/game.js:116-131 | every enemy left after the pass is still well formed |
| Descent.TwoAtBottomExample | js/game.js:127-131 | of two enemies at the bottom, the second is stepped over and stays unmoved, and the player loses 1 hp instead of 2 |
| Descent.PreMoveBottomExample | js/game.js:117-127 | the bottom test reads the top from before the move: an enemy one pixel above the bottom moves down and stays, and no hp is lost |
| Combat.Strike | js/game.js:175-196 | a hit splices the bullet's slot; the enemy loses one hp, or when it had 1 hp it is removed, gainXP(5) is applied and the score rises by exactly 10 |
| Combat.StrikeHitsItsTarget | js/game.js:175-190 | the hit enemy is the one at the given index: it loses one hp with every other enemy unchanged, or, with 1 hp left, it alone is spliced out |
| Combat.SweepStrikesFirst | js/game.js:165-198 | an attached bullet's walk is exactly one hit on the first enemy, from the walk's position on, whose box overlaps the bullet's |
| Combat.Sweep | js/game.js:165-198 | one bullet's walk over the enemies never adds bullets or enemies, and adds 10 points and one gainXP(5) per enemy removed |
| Combat.Volley | js/game.js:154-199 | a bullet tick never adds bullets or enemies, and adds 10 points and one gainXP(5) per enemy removed, whatever its kind |
| Combat.MoveBullets | js/game.js:153-200 | a bullet tick never adds bullets or enemies, and adds 10 points and one gainXP(5) per enemy destroyed |
| Combat.Fly | js/game.js:154-162 | the structural bullet pass of a tick without hits never adds bullets |
| Combat.FlyKeepsAll | js/game.js:157-161 | a pass without hits keeps every bullet exactly when none was already above the top edge |
| Combat.VolleyIsFly | js/game.js:154-199 | without hits, the index loop from any seam leaves the prefix alone and does to the rest what the structural walk does, with enemies, stats and score unchanged |
| Combat.MoveBulletsWithoutHits | js/game.js:154-199 | a tick without a hit drops each bullet that was above the top edge, steps over the bullet that took its slot, raises every other bullet by 5, and leaves enemies, stats and score alone |
| Combat.StrikeCostsOneHp | js/game.js:175-192 | a hit takes exactly one hp off the enemies' total and leaves no enemy with hp at or below 0 in the array |
| Combat.DetachedSweepChangesNothing | js/game.js:165-198 | once the bullet is out of the page, its remaining tests change nothing |
| Combat.SweepHitsAtMostOnce | js/game.js:165-198 | a bullet's walk changes nothing, or it hits exactly once: one hp is taken and the bullet's own slot is spliced |
| Combat.VolleyOneHpPerBullet | js/game.js:153-200 | over a tick the enemies lose no more hp than the number of bullets removed, and all remaining enemies keep 0 < hp <= maxHp |
| Combat.FlyRaisesAll | js/game.js:154-162 | with every bullet on screen, the pass without hits raises each bullet by 5 pixels and drops none |
| Combat.QuietTickRaises | js/game.js:154-199 | with no bullet off-screen and no collision, the tick raises every bullet by exactly 5 pixels, removes nothing and leaves enemies, stats and score alone |
| Combat.VolleyHitStep | js/game.js:154-197 | a bullet on screen that hits rises, strikes the first enemy its box overlaps, is spliced out, and the walk resumes one index on, so the bullet that took its slot is neither moved nor tested that tick |
| Combat.OffscreenSkipExample | js/game.js:154-162 | of two off-screen bullets, the first is removed and the second is stepped over and stays, unmoved |
| Combat.HitSkipExample | js/game.js:154-197 | a bullet that hits is removed and the bullet behind it stays unmoved for the tick, while the enemy hit loses one hp |
| Combat.ThreeHitsDestroyNormal | js/game.js:175-192 | three hits destroy a fresh normal enemy, giving 5 xp with no level-up and 10 points |
| Frames.ToggleAsWritten | js/game.js:54-57 | the toggle as written flips the flag and, when it un-pauses, always adds one frame request |
| Frames.Toggle | js/game.js:54-57 | the corrected toggle flips the flag and adds a request only when it un-pauses with none waiting |
| Frames.Frame | js/game.js:251-256 | a running frame runs one tick per waiting request and keeps them; a paused frame runs none and drops them |
| Frames.ToggleKeepsSettled | js/game.js:55-57 | the corrected toggle keeps at most one chain, and exactly one while running |
| Frames.FrameTicksOnce | js/game.js:251-256 | with one chain, a frame runs one tick while running and none while paused |
| Frames.RunSettled | js/game.js:55-57 | under any sequence of presses and frames, the corrected toggle keeps one chain |
| Frames.StackedChains | js/game.js:55-57 | as written, n pause-and-resume pairs between two frames leave n + 1 chains |
| Frames.DoublePressExample | js/game.js:55-57 | two quick presses from the start make the next frame run two ticks as written, and one with the correction |
| Game.Begin | js/game.js:12-27 | the page starts running with no enemies or bullets, score 0, level 1, 3 of 3 hp, and every invariant holding |
| Game.Tick | js/game.js:251-256 | a tick never adds entities, raises hp or lowers the score, and leaves the player and the frame state alone |
| Game.TickWithoutHits | js/game.js:251-256 | a tick without a hit moves enemies first and then bullets: bullets are tested against the enemies that survived the descent, at their descended positions, and the result is the enemy walk's survivors, hp lowered by its bottom hits, and the bullets as the no-hit pass leaves them |
| Game.OnFrame | js/game.js:251-256 | a frame advances the frame-request state as the loop does |
| Game.TogglePause | js/game.js:54-57 | the toggle flips the pause flag and leaves every entity, the stats and the score alone |
| Game.OnSpawn | js/game.js:82-112 | the spawn timer appends one enemy with the table's values whether or not the game is paused |
| Game.Fire | js/game.js:142-150 | a shot appends one bullet at the given origin and changes nothing else |
| Game.ClampX | js/game.js:212-216 | the clamp lies in [0, width - playerWidth] and is the identity inside that range; when the player is wider than the container it is 0 |
| Game.Drag | js/game.js:210-218 | a drag sets only the player's left edge, to the clamped value |
| Game.ClampIsNearest | js/game.js:232-235 | the clamped position is the allowed position nearest to the pointer |
| Game.ClampIdempotent | js/game.js:213-216 | clamping a clamped value changes nothing |
| Game.ClampMonotone | js/game.js:213-216 | a pointer further right never puts the player further left |
| Game.BeginValid | js/game.js:21-27 | the page starts in a state satisfying every invariant |
| Game.TickKeepsValid | js/game.js:251-256 | a tick keeps the invariants, including that the game is over exactly when hp <= 0 and every enemy has 0 < hp <= maxHp |
| Game.VolleyKeepsArena | js/game.js:153-200 | a bullet tick keeps every enemy well formed, the stats consistent with hp untouched, and the score a non-negative multiple of 10 |
| Game.TickAccounts | js/game.js:127-191 | each enemy that leaves in a tick either cost one hp at the bottom or earned 10 points; the score only grows in tens |
| Game.OnFrameKeepsValid | js/game.js:251-256 | a frame keeps every invariant |
| Game.EventsKeepValid | js/game.js:82-112 | the toggle, a spawn at a non-negative left edge, a shot and a drag each keep every invariant |
| Game.RunningFrameIsOneTick | js/game.js:251-256 | while running, a frame is exactly one tick |
| Game.PausedFrameFreezes | js/game.js:251-256 | while paused, a frame changes no entity, stat or score and lets the request lapse |
| Game.ResumeTicksOnce | js/game.js:55-57 | with the corrected toggle, resuming continues from the frozen positions with exactly one tick on the next frame |
| Game.GameOverIsTerminal | js/game.js:133-136 | after game over no frame, press, spawn, shot or drag changes the session |
| Game.LastHpExample | js/game.js:127-136 | with 1 hp left, an enemy at the bottom ends the game in the next tick with no bullets in flight |

## Findings

| source | as written | input that shows it | evidently intended | confidence | as-written member | corrected member |
|---|---|---|---|---|---|---|
| js/game.js:55-57 | un-pausing always calls `requestAnimationFrame(gameLoop)`, even when the chain that was running before the pause still has a request waiting | press the HUD toggle twice within one frame: the next frame runs `gameLoop` twice, and every frame after that too | one `gameLoop` chain, so one tick per frame after resuming | not executed; high (the paused check in `gameLoop` only ends a chain when a frame arrives while paused) | Frames.ToggleAsWritten, shown by Frames.StackedChains | Frames.Toggle, proved by Frames.RunSettled and used by Game.TogglePause |

## Left out

- HUD text, the hp bar's percentage (floating point), item grid and HUD classes (js/game.js:30-35, 56-60): presentation only.
- `createExplosion` and the damage styling (js/game.js:64-79, 177-184): cosmetic, random sizes and colours, and timer-driven removal.
- The random draws in `spawnEnemy`: `Entities.KindFor` models the kind thresholds on a given roll, and `Game.OnSpawn` takes the kind and the left edge as inputs. The source's left edge is a fractional pixel value, while the model's is an integer.
- Game.Fire: takes the bullet's origin as given. The source centres it at `offsetLeft + offsetWidth / 2 - 10`, which can be a fractional pixel value.
- Timing: the 2000 ms spawn interval, frame timing, `alert` and `location.reload`. The game-over alert is a flag, and later events are ignored.
- Layout reads: boxes are integer rectangles in the container's frame, with the container at the viewport origin. Enemies are 50-pixel squares, and the bullet's size is a configuration value.
- Drag bookkeeping (`isDragging`, `dragOffsetX`, listener wiring): input plumbing. Only the clamp is modelled.
- Game.TogglePause: uses the corrected toggle from the finding above, not the one as written.
- Game.ResumeTicksOnce: holds for the corrected toggle only. With the toggle as written, a pause and a resume inside one frame give two ticks per frame (`Frames.DoublePressExample`).
- Combat.MoveBulletsWithoutHits: the structural bullet walk is proved equal to the index loop only for ticks in which no bullet on screen hits an enemy. Ticks with hits are described step by step instead: `Combat.VolleyHitStep` for the outer walk (strike, splice, resume one index on) and `Combat.SweepStrikesFirst` for the inner one; there is no closed form for a whole tick with hits.
- Game.TickWithoutHits: pins the enemies-then-bullets order for ticks without a hit; for ticks with hits the order shows only through `Game.Tick`'s definition and `Combat.VolleyHitStep`.

=== FILE: arrays.dfy ===
/** JavaScript array helpers the game loop relies on, over immutable sequences. */
module Arrays {

  /** `array.splice(i, 1)`: removes the element at index `i`; an index past
      the end leaves the array as it is. */
  function Splice<T>(s: seq<T>, i: nat): (r: seq<T>)
    ensures i < |s| ==> |r| == |s| - 1
    ensures i >= |s| ==> r == s
    ensures forall j :: 0 <= j < i && j < |r| ==> r[j] == s[j]
    ensures forall j :: i <= j < |r| ==> r[j] == s[j + 1]
  {
    if i < |s| then s[..i] + s[i + 1..] else s
  }

  /** Overwriting an element and then splicing it out is the same as splicing it out. */
  lemma SpliceAfterUpdate<T>(s: seq<T>, i: nat, x: T)
    requires i < |s|
    ensures Splice(s[i := x], i) == Splice(s, i)
  {
    assert s[i := x][..i] == s[..i];
    assert s[i := x][i + 1..] == s[i + 1..];
  }

  /** Splicing at the seam of a concatenation drops the head of the right part. */
  lemma SpliceAtSeam<T>(pre: seq<T>, todo: seq<T>)
    requires |todo| > 0
    ensures Splice(pre + todo, |pre|) == pre + todo[1..]
  {
    assert (pre + todo)[..|pre|] == pre;
    assert (pre + todo)[|pre| + 1..] == todo[1..];
  }

  /** Splicing at `i` is the concatenation of the parts before and after `i`. */
  lemma SpliceSplits<T>(s: seq<T>, i: nat)
    requires i < |s|
    ensures Splice(s, i) == s[..i] + s[i + 1..]
    ensures s == s[..i] + ([s[i]] + s[i + 1..])
  {
    assert s == s[..i] + ([s[i]] + s[i + 1..]);
  }

  /** Appending one element and then a tail is prepending it to the tail. */
  lemma Regroup<T>(pre: seq<T>, x: T, rest: seq<T>)
    ensures pre + [x] + rest == pre + ([x] + rest)
  {
  }
}

=== FILE: combat.dfy ===
/** `moveBullets`: one tick of bullet movement, collision tests and hit resolution.

    Both loops are `forEach` walks that `splice` the live array they walk,
    modelled as index loops exactly as written (`Volley` outside, `Sweep`
    inside); a bullet that slides into a freed slot is stepped over for the
    tick. The inner walk has no `break`: a bullet goes on being tested after it
    was removed. The browser reports a removed node's box as the empty box at
    the origin (`Detached`), which meets no enemy inside the container, so the
    extra tests never hit (`SweepHitsAtMostOnce`). */
module Combat {
  import opened Arrays
  import opened Progression
  import opened Entities

  /** xp and score awarded for each enemy destroyed, whatever its kind. */
  const KillXP := 5
  const KillScore := 10

  /** The state `moveBullets` reads and writes. */
  datatype Arena = Arena(bullets: seq<Bullet>, enemies: seq<Enemy>, stats: Stats, score: int)

  /** Total hit points still carried by the enemies. */
  function Health(es: seq<Enemy>): int
    decreases |es|
  {
    if |es| == 0 then 0 else es[0].hp + Health(es[1..])
  }

  /** A bullet one step higher. */
  function Rise(b: Bullet): Bullet
  {
    b.(top := b.top - BulletStep)
  }

  /** The box tested for a bullet: its own while it is in the page. */
  function BoxOf(cfg: Config, b: Bullet, attached: bool): Box
  {
    if attached then BulletBox(cfg, b) else Detached
  }

  /** Bullet number `k` hits enemy number `j`: the enemy loses one hp and, at
      zero or below, is removed and rewarded; the bullet's slot is spliced. */
  function Strike(a: Arena, j: nat, k: nat): (r: Arena)
    requires j < |a.enemies|
    ensures r.bullets == Splice(a.bullets, k)
    ensures |r.enemies| == |a.enemies| - (if a.enemies[j].hp <= 1 then 1 else 0)
    ensures r.score == a.score + KillScore * (|a.enemies| - |r.enemies|)
    ensures r.stats == if |r.enemies| < |a.enemies| then GainXP(a.stats, KillXP) else a.stats
  {
    var e := a.enemies[j];
    var hp := e.hp - 1;
    var es := a.enemies[j := e.(hp := hp)];
    var bs := Splice(a.bullets, k);
    if hp <= 0 then
      Arena(bs, Splice(es, j), GainXP(a.stats, KillXP), a.score + KillScore)
    else
      Arena(bs, es, a.stats, a.score)
  }

  /** The inner `forEach` from enemy `j` on, for bullet `b` sitting at index `k`
      of the bullet array; the box is re-read at every test, and a hit takes the
      bullet out of the page. */
  function Sweep(cfg: Config, b: Bullet, attached: bool, k: nat, a: Arena, j: nat): (r: Arena)
    ensures |r.bullets| <= |a.bullets|
    ensures |r.enemies| <= |a.enemies|
    ensures r.score == a.score + KillScore * (|a.enemies| - |r.enemies|)
    ensures r.stats == GainEach(a.stats, KillXP, |a.enemies| - |r.enemies|)
    decreases |a.enemies| - j
  {
    if j >= |a.enemies| then a
    else if Overlap(BoxOf(cfg, b, attached), EnemyBox(a.enemies[j])) then
      var a' := Strike(a, j, k);
      var r := Sweep(cfg, b, false, k, a', j + 1);
      GainEachAdds(a.stats, KillXP, |a.enemies| - |a'.enemies|, |a'.enemies| - |r.enemies|);
      r
    else
      Sweep(cfg, b, attached, k, a, j + 1)
  }

  /** The outer `forEach` from bullet `k` on: the bullet rises, is spliced out
      if it was already above the top edge, and is then tested against every
      enemy all the same. */
  function Volley(cfg: Config, a: Arena, k: nat): (r: Arena)
    ensures |r.bullets| <= |a.bullets|
    ensures |r.enemies| <= |a.enemies|
    ensures r.score == a.score + KillScore * (|a.enemies| - |r.enemies|)
    ensures r.stats == GainEach(a.stats, KillXP, |a.enemies| - |r.enemies|)
    decreases |a.bullets| - k
  {
    if k >= |a.bullets| then a
    else
      var b := a.bullets[k];
      var moved := Rise(b);
      var bs := a.bullets[k := moved];
      var offscreen := b.top < 0;
      var a1 := a.(bullets := if offscreen then Splice(bs, k) else bs);
      var a2 := Sweep(cfg, moved, !offscreen, k, a1, 0);
      var r := Volley(cfg, a2, k + 1);
      GainEachAdds(a.stats, KillXP, |a.enemies| - |a2.enemies|, |a2.enemies| - |r.enemies|);
      r
  }

  /** `moveBullets()` on the whole array. */
  function MoveBullets(cfg: Config, a: Arena): (r: Arena)
    ensures |r.bullets| <= |a.bullets|
    ensures |r.enemies| <= |a.enemies|
    ensures r.score == a.score + KillScore * (|a.enemies| - |r.enemies|)
    ensures r.stats == GainEach(a.stats, KillXP, |a.enemies| - |r.enemies|)
  {
    Volley(cfg, a, 0)
  }

  /** The bullet pass by structural recursion, for ticks without a hit: a
      bullet that was on screen rises one step; one that was already above the
      top edge is dropped, and the bullet after it slides into its slot and is
      stepped over, unmoved. */
  function Fly(bs: seq<Bullet>): (r: seq<Bullet>)
    ensures |r| <= |bs|
    decreases |bs|
  {
    if |bs| == 0 then []
    else if bs[0].top >= 0 then [Rise(bs[0])] + Fly(bs[1..])
    else if |bs| == 1 then []
    else [bs[1]] + Fly(bs[2..])
  }

  /** Every bullet risen one step, nothing removed. */
  function Raise(bs: seq<Bullet>): (r: seq<Bullet>)
    ensures |r| == |bs|
    ensures forall i :: 0 <= i < |bs| ==> r[i] == Rise(bs[i])
  {
    seq(|bs|, i requires 0 <= i < |bs| => Rise(bs[i]))
  }

  /** Bullet `b`, once risen, does not touch enemy `e`. */
  predicate Misses(cfg: Config, b: Bullet, e: Enemy)
  {
    !Overlap(BulletBox(cfg, Rise(b)), EnemyBox(e))
  }

  lemma {:induction false} HealthConcat(x: seq<Enemy>, y: seq<Enemy>)
    ensures Health(x + y) == Health(x) + Health(y)
    decreases |x|
  {
    if |x| == 0 {
      assert x + y == y;
    } else {
      assert (x + y)[1..] == x[1..] + y;
      HealthConcat(x[1..], y);
    }
  }

  /** Replacing one enemy changes the total by the difference of their hp. */
  lemma HealthUpdate(es: seq<Enemy>, j: nat, e: Enemy)
    requires j < |es|
    ensures Health(es[j := e]) == Health(es) - es[j].hp + e.hp
  {
    assert es == es[..j] + ([es[j]] + es[j + 1..]);
    assert es[j := e] == es[..j] + ([e] + es[j + 1..]);
    HealthConcat(es[..j], [es[j]] + es[j + 1..]);
    HealthConcat(es[..j], [e] + es[j + 1..]);
    HealthConcat([es[j]], es[j + 1..]);
    HealthConcat([e], es[j + 1..]);
  }

  /** Splicing an enemy out removes its hp from the total. */
  lemma HealthSplice(es: seq<Enemy>, j: nat)
    requires j < |es|
    ensures Health(Splice(es, j)) == Health(es) - es[j].hp
  {
    SpliceSplits(es, j);
    HealthWithout(es[..j], es[j], es[j + 1..]);
  }

  lemma HealthWithout(pre: seq<Enemy>, e: Enemy, post: seq<Enemy>)
    ensures Health(pre + post) == Health(pre + ([e] + post)) - e.hp
  {
    HealthConcat(pre, [e] + post);
    HealthConcat([e], post);
    HealthConcat(pre, post);
  }

  /** A hit on a live enemy takes exactly one hp off the enemies' total, and an
      enemy brought to zero does not stay in the array. */
  lemma StrikeCostsOneHp(a: Arena, j: nat, k: nat)
    requires j < |a.enemies|
    requires AllWellFormed(a.enemies)
    ensures AllWellFormed(Strike(a, j, k).enemies)
    ensures Health(Strike(a, j, k).enemies) == Health(a.enemies) - 1
  {
    var e := a.enemies[j];
    var es := a.enemies[j := e.(hp := e.hp - 1)];
    HealthUpdate(a.enemies, j, e.(hp := e.hp - 1));
    if e.hp - 1 <= 0 {
      HealthSplice(es, j);
      var r := Splice(es, j);
      forall i | 0 <= i < |r|
        ensures WellFormed(r[i])
      {
        if i < j {
          assert r[i] == a.enemies[i];
        } else {
          assert r[i] == a.enemies[i + 1];
        }
      }
    }
  }

  /** A hit damages enemy `j` and no other: one hp less while it had more than
      one, otherwise it is spliced out and the enemies after it move down a slot. */
  lemma StrikeHitsItsTarget(a: Arena, j: nat, k: nat)
    requires j < |a.enemies|
    ensures var r := Strike(a, j, k);
      && (a.enemies[j].hp > 1 ==> r.enemies == a.enemies[j := a.enemies[j].(hp := a.enemies[j].hp - 1)])
      && (a.enemies[j].hp <= 1 ==> r.enemies == Splice(a.enemies, j))
  {
    var e := a.enemies[j];
    SpliceAfterUpdate(a.enemies, j, e.(hp := e.hp - 1));
  }

  /** A bullet already out of the page hits nothing in the rest of the walk. */
  lemma {:induction false} DetachedSweepChangesNothing(cfg: Config, b: Bullet, k: nat, a: Arena, j: nat)
    requires AllWellFormed(a.enemies)
    ensures Sweep(cfg, b, false, k, a, j) == a
    decreases |a.enemies| - j
  {
    if j < |a.enemies| {
      DetachedHitsNothing(a.enemies[j]);
      DetachedSweepChangesNothing(cfg, b, k, a, j + 1);
    }
  }

  /** One bullet's walk over the enemies changes nothing, or it hits exactly
      once: one hp comes off the enemies, and the bullet's own slot is spliced.
      Enemies stay well formed either way. */
  lemma {:induction false} SweepHitsAtMostOnce(cfg: Config, b: Bullet, attached: bool, k: nat, a: Arena, j: nat)
    requires AllWellFormed(a.enemies)
    ensures var r := Sweep(cfg, b, attached, k, a, j);
      && AllWellFormed(r.enemies)
      && (|| r == a
          || (attached && Health(r.enemies) == Health(a.enemies) - 1 && r.bullets == Splice(a.bullets, k)))
    decreases |a.enemies| - j
  {
    if j >= |a.enemies| {
    } else if !attached {
      DetachedSweepChangesNothing(cfg, b, k, a, j);
    } else if Overlap(BoxOf(cfg, b, attached), EnemyBox(a.enemies[j])) {
      var a' := Strike(a, j, k);
      StrikeCostsOneHp(a, j, k);
      DetachedSweepChangesNothing(cfg, b, k, a', j + 1);
    } else {
      SweepHitsAtMostOnce(cfg, b, attached, k, a, j + 1);
    }
  }

  /** Over a whole tick, every hp the enemies lose used up a bullet of its own,
      and no enemy with hp at or below zero is left in the array. */
  lemma {:induction false} VolleyOneHpPerBullet(cfg: Config, a: Arena, k: nat)
    requires AllWellFormed(a.enemies)
    ensures var r := Volley(cfg, a, k);
      && AllWellFormed(r.enemies)
      && 0 <= Health(a.enemies) - Health(r.enemies) <= |a.bullets| - |r.bullets|
    decreases |a.bullets| - k
  {
    if k < |a.bullets| {
      var b := a.bullets[k];
      var moved := Rise(b);
      var bs := a.bullets[k := moved];
      var offscreen := b.top < 0;
      var a1 := a.(bullets := if offscreen then Splice(bs, k) else bs);
      var a2 := Sweep(cfg, moved, !offscreen, k, a1, 0);
      SweepHitsAtMostOnce(cfg, moved, !offscreen, k, a1, 0);
      VolleyOneHpPerBullet(cfg, a2, k + 1);
    }
  }

  /** A bullet walk that hits nothing leaves the arena as it was. */
  lemma {:induction false} MissingSweepChangesNothing(cfg: Config, b: Bullet, k: nat, a: Arena, j: nat)
    requires forall i :: j <= i < |a.enemies| ==> !Overlap(BulletBox(cfg, b), EnemyBox(a.enemies[i]))
    ensures Sweep(cfg, b, true, k, a, j) == a
    decreases |a.enemies| - j
  {
    if j < |a.enemies| {
      MissingSweepChangesNothing(cfg, b, k, a, j + 1);
    }
  }

  /** One quiet step of the outer walk: the bullet at `k` rises and nothing else
      changes. */
  lemma QuietStep(cfg: Config, a: Arena, k: nat)
    requires k < |a.bullets|
    requires a.bullets[k].top >= 0
    requires forall j :: 0 <= j < |a.enemies| ==> Misses(cfg, a.bullets[k], a.enemies[j])
    ensures var b := a.bullets[k];
      Volley(cfg, a, k) == Volley(cfg, a.(bullets := a.bullets[k := Rise(b)]), k + 1)
  {
    var b := a.bullets[k];
    var moved := Rise(b);
    var a1 := a.(bullets := a.bullets[k := moved]);
    forall i | 0 <= i < |a1.enemies|
      ensures !Overlap(BulletBox(cfg, moved), EnemyBox(a1.enemies[i]))
    {
      assert Misses(cfg, b, a.enemies[i]);
    }
    MissingSweepChangesNothing(cfg, moved, k, a1, 0);
  }

  /** Two bullets already above the top edge: the first is spliced out, the
      second slides into its slot and is stepped over, so it stays, unmoved. */
  lemma OffscreenSkipExample(cfg: Config)
    ensures MoveBullets(cfg, Arena([Bullet(0, -1), Bullet(10, -3)], [], Start, 0)).bullets == [Bullet(10, -3)]
  {
    var a := Arena([Bullet(0, -1), Bullet(10, -3)], [], Start, 0);
    var bs := a.bullets[0 := Bullet(0, -6)];
    assert Splice(bs, 0) == [Bullet(10, -3)];
  }

  /** Three hits on a fresh normal enemy destroy it: one kill, so 5 xp (no
      level-up from the first threshold of 10) and 10 points. */
  lemma ThreeHitsDestroyNormal(left: int)
    ensures var a0 := Arena([], [Spawn(Normal, left)], Start, 0);
      var a3 := Strike(Strike(Strike(a0, 0, 0), 0, 0), 0, 0);
      && a3.enemies == []
      && a3.stats == Start.(xp := 5)
      && a3.score == 10
  {
  }

  /** A pass without hits keeps every bullet exactly when none of them was
      already above the top edge. */
  lemma {:induction false} FlyKeepsAll(bs: seq<Bullet>)
    ensures |Fly(bs)| == |bs| <==> forall i :: 0 <= i < |bs| ==> bs[i].top >= 0
    decreases |bs|
  {
    if |bs| > 0 {
      if bs[0].top >= 0 {
        FlyKeepsAll(bs[1..]);
        if forall i :: 0 <= i < |bs| - 1 ==> bs[1..][i].top >= 0 {
          forall i | 0 <= i < |bs|
            ensures bs[i].top >= 0
          {
            if i > 0 {
              assert bs[i] == bs[1..][i - 1];
            }
          }
        }
      } else if |bs| > 1 {
        assert |Fly(bs[2..])| <= |bs| - 2;
      }
    }
  }

  /** An attached bullet strikes the first enemy, from `j` on, whose box it
      overlaps, and that enemy alone: the walk after the hit changes nothing. */
  lemma {:induction false} SweepStrikesFirst(cfg: Config, b: Bullet, k: nat, a: Arena, j: nat, j0: nat)
    requires AllWellFormed(a.enemies)
    requires j <= j0 < |a.enemies|
    requires Overlap(BulletBox(cfg, b), EnemyBox(a.enemies[j0]))
    requires forall i :: j <= i < j0 ==> !Overlap(BulletBox(cfg, b), EnemyBox(a.enemies[i]))
    ensures Sweep(cfg, b, true, k, a, j) == Strike(a, j0, k)
    decreases j0 - j
  {
    if j == j0 {
      StrikeCostsOneHp(a, j, k);
      DetachedSweepChangesNothing(cfg, b, k, Strike(a, j, k), j + 1);
    } else {
      SweepStrikesFirst(cfg, b, k, a, j + 1, j0);
    }
  }

  /** No bullet that is on screen touches an enemy once risen. */
  predicate NoHits(cfg: Config, bs: seq<Bullet>, es: seq<Enemy>)
  {
    forall i, j :: 0 <= i < |bs| && 0 <= j < |es| && bs[i].top >= 0 ==> Misses(cfg, bs[i], es[j])
  }

  /** In a tick without a hit, the index loop started at the seam between a
      finished prefix and the rest leaves the prefix, the enemies, the stats
      and the score alone and does to the rest what `Fly` says. */
  lemma {:induction false} VolleyIsFly(cfg: Config, pre: seq<Bullet>, todo: seq<Bullet>, a: Arena)
    requires AllWellFormed(a.enemies)
    requires NoHits(cfg, todo, a.enemies)
    ensures Volley(cfg, a.(bullets := pre + todo), |pre|) == a.(bullets := pre + Fly(todo))
    decreases |todo|
  {
    if |todo| == 0 {
      assert pre + todo == pre;
    } else if todo[0].top >= 0 {
      VolleyRises(cfg, pre, todo, a);
    } else {
      VolleyDrops(cfg, pre, todo, a);
    }
  }

  /** The step of `VolleyIsFly` for a bullet on screen. */
  lemma {:induction false} VolleyRises(cfg: Config, pre: seq<Bullet>, todo: seq<Bullet>, a: Arena)
    requires AllWellFormed(a.enemies)
    requires NoHits(cfg, todo, a.enemies)
    requires |todo| > 0 && todo[0].top >= 0
    ensures Volley(cfg, a.(bullets := pre + todo), |pre|) == a.(bullets := pre + Fly(todo))
    decreases |todo|, 0
  {
    var pre' := pre + [Rise(todo[0])];
    RiseAtSeam(cfg, pre, todo, a);
    NoHitsTail(cfg, todo, a.enemies, 1);
    VolleyIsFly(cfg, pre', todo[1..], a);
    FlyStep(todo);
    Regroup(pre, Rise(todo[0]), Fly(todo[1..]));
  }

  /** The step of `VolleyIsFly` for a bullet already above the top edge: it is
      spliced out, tested as a removed node, and its successor is stepped over. */
  lemma {:induction false} VolleyDrops(cfg: Config, pre: seq<Bullet>, todo: seq<Bullet>, a: Arena)
    requires AllWellFormed(a.enemies)
    requires NoHits(cfg, todo, a.enemies)
    requires |todo| > 0 && todo[0].top < 0
    ensures Volley(cfg, a.(bullets := pre + todo), |pre|) == a.(bullets := pre + Fly(todo))
    decreases |todo|, 0
  {
    DropAtSeam(cfg, pre, todo, a);
    FlyDropsHead(pre, todo);
    if |todo| > 1 {
      NoHitsTail(cfg, todo, a.enemies, 2);
      VolleyIsFly(cfg, pre + [todo[1]], todo[2..], a);
    }
  }

  /** The sequence bookkeeping of `VolleyDrops`, kept apart from `Volley`. */
  lemma FlyDropsHead(pre: seq<Bullet>, todo: seq<Bullet>)
    requires |todo| > 0 && todo[0].top < 0
    ensures |todo| == 1 ==> pre + todo[1..] == pre && pre + Fly(todo) == pre
    ensures |todo| > 1 ==> pre + todo[1..] == pre + [todo[1]] + todo[2..]
    ensures |todo| > 1 ==> |pre + [todo[1]]| == |pre| + 1
    ensures |todo| > 1 ==> pre + [todo[1]] + Fly(todo[2..]) == pre + Fly(todo)
  {
    FlyStep(todo);
    if |todo| == 1 {
      assert todo[1..] == [];
    } else {
      assert todo[1..] == [todo[1]] + todo[2..];
      Regroup(pre, todo[1], todo[2..]);
      Regroup(pre, todo[1], Fly(todo[2..]));
    }
  }

  /** One step of `Fly`, stated without unfolding it any further. */
  lemma FlyStep(bs: seq<Bullet>)
    requires |bs| > 0
    ensures bs[0].top >= 0 ==> Fly(bs) == [Rise(bs[0])] + Fly(bs[1..])
    ensures bs[0].top < 0 && |bs| == 1 ==> Fly(bs) == []
    ensures bs[0].top < 0 && |bs| > 1 ==> Fly(bs) == [bs[1]] + Fly(bs[2..])
  {
  }

  /** A bullet on screen at the seam rises, and the seam moves past it. */
  lemma RiseAtSeam(cfg: Config, pre: seq<Bullet>, todo: seq<Bullet>, a: Arena)
    requires NoHits(cfg, todo, a.enemies)
    requires |todo| > 0 && todo[0].top >= 0
    ensures Volley(cfg, a.(bullets := pre + todo), |pre|)
         == Volley(cfg, a.(bullets := pre + [Rise(todo[0])] + todo[1..]), |pre| + 1)
  {
    UpdateAtSeam(pre, todo, Rise(todo[0]));
    NoHitsHead(cfg, pre, todo, a.enemies);
    QuietStep(cfg, a.(bullets := pre + todo), |pre|);
  }

  /** A bullet above the top edge at the seam is spliced out; the seam moves
      on by one, past the bullet that took its slot. */
  lemma DropAtSeam(cfg: Config, pre: seq<Bullet>, todo: seq<Bullet>, a: Arena)
    requires AllWellFormed(a.enemies)
    requires |todo| > 0 && todo[0].top < 0
    ensures Volley(cfg, a.(bullets := pre + todo), |pre|)
         == Volley(cfg, a.(bullets := pre + todo[1..]), |pre| + 1)
  {
    UpdateAtSeam(pre, todo, Rise(todo[0]));
    SpliceAtSeam(pre, todo);
    DropStep(cfg, a.(bullets := pre + todo), |pre|);
  }

  lemma UpdateAtSeam<T>(pre: seq<T>, todo: seq<T>, x: T)
    requires |todo| > 0
    ensures (pre + todo)[|pre|] == todo[0]
    ensures (pre + todo)[|pre| := x] == pre + [x] + todo[1..]
  {
  }

  lemma NoHitsHead(cfg: Config, pre: seq<Bullet>, todo: seq<Bullet>, es: seq<Enemy>)
    requires NoHits(cfg, todo, es)
    requires |todo| > 0 && todo[0].top >= 0
    ensures forall j :: 0 <= j < |es| ==> Misses(cfg, (pre + todo)[|pre|], es[j])
  {
    assert (pre + todo)[|pre|] == todo[0];
  }

  /** One step of the outer walk for a bullet already above the top edge: it is
      spliced out and, once out of the page, hits nothing. */
  lemma DropStep(cfg: Config, a: Arena, k: nat)
    requires AllWellFormed(a.enemies)
    requires k < |a.bullets| && a.bullets[k].top < 0
    ensures Volley(cfg, a, k) == Volley(cfg, a.(bullets := Splice(a.bullets, k)), k + 1)
  {
    var moved := Rise(a.bullets[k]);
    SpliceAfterUpdate(a.bullets, k, moved);
    DetachedSweepChangesNothing(cfg, moved, k, a.(bullets := Splice(a.bullets, k)), 0);
  }

  lemma NoHitsTail(cfg: Config, bs: seq<Bullet>, es: seq<Enemy>, n: nat)
    requires n <= |bs|
    requires NoHits(cfg, bs, es)
    ensures NoHits(cfg, bs[n..], es)
  {
    forall i, j | 0 <= i < |bs[n..]| && 0 <= j < |es| && bs[n..][i].top >= 0
      ensures Misses(cfg, bs[n..][i], es[j])
    {
      assert bs[n..][i] == bs[i + n];
    }
  }

  /** A bullet tick without a hit is `Fly`: bullets above the top edge go,
      each taking its successor's move for the tick with it, the others rise
      by 5, and enemies, stats and score stay as they were. */
  lemma MoveBulletsWithoutHits(cfg: Config, a: Arena)
    requires AllWellFormed(a.enemies)
    requires NoHits(cfg, a.bullets, a.enemies)
    ensures MoveBullets(cfg, a) == a.(bullets := Fly(a.bullets))
  {
    VolleyIsFly(cfg, [], a.bullets, a);
    assert [] + a.bullets == a.bullets;
    assert a.(bullets := a.bullets) == a;
  }

  /** With every bullet on screen and no hit, the pass raises each bullet by
      one step and drops none. */
  lemma {:induction false} FlyRaisesAll(bs: seq<Bullet>)
    requires forall i :: 0 <= i < |bs| ==> bs[i].top >= 0
    ensures Fly(bs) == Raise(bs)
    decreases |bs|
  {
    if |bs| > 0 {
      FlyStep(bs);
      assert forall i :: 0 <= i < |bs[1..]| ==> bs[1..][i] == bs[i + 1];
      FlyRaisesAll(bs[1..]);
      assert [Rise(bs[0])] + Raise(bs[1..]) == Raise(bs);
    }
  }

  /** A quiet tick (every bullet on screen, none touching an enemy once risen)
      raises every bullet by 5 pixels, removes nothing and leaves enemies,
      stats and score alone. */
  lemma QuietTickRaises(cfg: Config, a: Arena)
    requires AllWellFormed(a.enemies)
    requires forall i :: 0 <= i < |a.bullets| ==> a.bullets[i].top >= 0
    requires NoHits(cfg, a.bullets, a.enemies)
    ensures MoveBullets(cfg, a) == a.(bullets := Raise(a.bullets))
  {
    MoveBulletsWithoutHits(cfg, a);
    FlyRaisesAll(a.bullets);
  }

  /** One step of the outer walk for a bullet on screen that hits: it rises,
      strikes the first enemy its box overlaps, its slot is spliced, and the
      walk resumes one index further on, so the bullet that slid into the
      freed slot is neither moved nor tested this tick. */
  lemma VolleyHitStep(cfg: Config, a: Arena, k: nat, j0: nat)
    requires AllWellFormed(a.enemies)
    requires k < |a.bullets| && a.bullets[k].top >= 0
    requires j0 < |a.enemies|
    requires Overlap(BulletBox(cfg, Rise(a.bullets[k])), EnemyBox(a.enemies[j0]))
    requires forall i :: 0 <= i < j0 ==> !Overlap(BulletBox(cfg, Rise(a.bullets[k])), EnemyBox(a.enemies[i]))
    ensures Volley(cfg, a, k) == Volley(cfg, Strike(a.(bullets := a.bullets[k := Rise(a.bullets[k])]), j0, k), k + 1)
  {
    var moved := Rise(a.bullets[k]);
    SweepStrikesFirst(cfg, moved, k, a.(bullets := a.bullets[k := moved]), 0, j0);
  }

  /** A bullet that hits is spliced out, and the bullet behind it slides into
      its slot and is stepped over: it neither rises nor is tested this tick. */
  lemma HitSkipExample()
    ensures var cfg := Config(400, 600, 50, 10, 10);
      var a := Arena([Bullet(10, 20), Bullet(100, 300)], [Enemy(Normal, 3, 3, 0, 0)], Start, 0);
      MoveBullets(cfg, a) == a.(bullets := [Bullet(100, 300)], enemies := [Enemy(Normal, 2, 3, 0, 0)])
  {
    var cfg := Config(400, 600, 50, 10, 10);
    var a := Arena([Bullet(10, 20), Bullet(100, 300)], [Enemy(Normal, 3, 3, 0, 0)], Start, 0);
    VolleyHitStep(cfg, a, 0, 0);
    var a1 := Strike(a.(bullets := a.bullets[0 := Rise(a.bullets[0])]), 0, 0);
    assert a1.bullets == [Bullet(100, 300)];
    assert a1.enemies == [Enemy(Normal, 2, 3, 0, 0)];
  }
}

=== FILE: descent.dfy ===
/** `moveEnemies`: one tick of enemy descent and bottom-edge damage.

    The source walks the live array with `forEach` and removes an enemy that
    reached the bottom with `splice(index, 1)` inside the same walk. `forEach`
    keeps counting up while the array shrinks underneath it, so the enemy that
    slides into the freed slot is never visited in that tick: it neither moves
    nor is tested against the bottom. `Visit` models that index loop as
    written; `Walk` says the same thing by structural recursion, and `Filter`
    is the survivor-filter pass that visits every enemy. `VisitIsWalk` connects the
    first two; `WalkAgreesWithFilter`, `WalkUndercounts` and the example lemmas
    mark where the last two part ways. */
module Descent {
  import opened Arrays
  import opened Entities

  /** The enemies left after the tick, the player's hp, and whether the
      game-over alert was raised during the tick. */
  datatype Outcome = Outcome(enemies: seq<Enemy>, hp: int, gameOver: bool)

  /** The enemies that remain after a pass, and how many reached the bottom. */
  datatype Walked = Walked(survivors: seq<Enemy>, hits: nat)

  /** The `forEach` callback at index `k` and every later one. The enemy is moved
      first; the bottom test uses its top from before the move. Game over does
      not stop the walk: the alert and the page reload come back to it. */
  function Visit(height: int, es: seq<Enemy>, k: nat, hp: int, over: bool): (r: Outcome)
    ensures |r.enemies| <= |es|
    ensures r.hp == hp - (|es| - |r.enemies|)
    decreases |es| - k
  {
    if k >= |es| then Outcome(es, hp, over)
    else
      var e := es[k];
      var moved := es[k := Descend(e)];
      if AtBottom(height, e) then
        Visit(height, Splice(moved, k), k + 1, hp - 1, over || hp - 1 <= 0)
      else
        Visit(height, moved, k + 1, hp, over)
  }

  /** `moveEnemies()` on the whole array. */
  function MoveEnemies(height: int, es: seq<Enemy>, hp: int): (r: Outcome)
    ensures |r.enemies| <= |es|
    ensures r.hp == hp - (|es| - |r.enemies|)
  {
    Visit(height, es, 0, hp, false)
  }

  /** The same pass by structural recursion: after an enemy is removed the next
      one is stepped over untouched. */
  function Walk(height: int, es: seq<Enemy>): (w: Walked)
    ensures |w.survivors| + w.hits == |es|
    decreases |es|
  {
    if |es| == 0 then Walked([], 0)
    else if !AtBottom(height, es[0]) then
      var rest := Walk(height, es[1..]);
      Walked([Descend(es[0])] + rest.survivors, rest.hits)
    else if |es| == 1 then Walked([], 1)
    else
      var rest := Walk(height, es[2..]);
      Walked([es[1]] + rest.survivors, rest.hits + 1)
  }

  /** The intended pass: every enemy moves, and exactly those that were at the
      bottom are removed, each costing one hp. */
  function Filter(height: int, es: seq<Enemy>): (w: Walked)
    ensures |w.survivors| + w.hits == |es|
    decreases |es|
  {
    if |es| == 0 then Walked([], 0)
    else
      var rest := Filter(height, es[1..]);
      if AtBottom(height, es[0]) then Walked(rest.survivors, rest.hits + 1)
      else Walked([Descend(es[0])] + rest.survivors, rest.hits)
  }

  /** The index loop, started at the seam between a finished prefix and the
      rest, leaves the prefix alone and does to the rest what `Walk` says; the
      alert is raised exactly when some enemy hit the bottom and the final hp
      is not positive. */
  lemma {:induction false} VisitIsWalk(height: int, pre: seq<Enemy>, todo: seq<Enemy>, hp: int, over: bool)
    ensures var w := Walk(height, todo);
      Visit(height, pre + todo, |pre|, hp, over)
        == Outcome(pre + w.survivors, hp - w.hits, over || (w.hits > 0 && hp - w.hits <= 0))
    decreases |todo|
  {
    if |todo| == 0 {
      assert pre + todo == pre;
    } else if !AtBottom(height, todo[0]) {
      VisitMoves(height, pre, todo, hp, over);
    } else {
      VisitRemoves(height, pre, todo, hp, over);
    }
  }

  /** The step of `VisitIsWalk` for an enemy above the bottom. */
  lemma {:induction false} VisitMoves(height: int, pre: seq<Enemy>, todo: seq<Enemy>, hp: int, over: bool)
    requires |todo| > 0 && !AtBottom(height, todo[0])
    ensures var w := Walk(height, todo);
      Visit(height, pre + todo, |pre|, hp, over)
        == Outcome(pre + w.survivors, hp - w.hits, over || (w.hits > 0 && hp - w.hits <= 0))
    decreases |todo|, 0
  {
    var es := pre + todo;
    var d := Descend(todo[0]);
    var pre' := pre + [d];
    assert es[|pre|] == todo[0];
    assert es[|pre| := d] == pre' + todo[1..];
    assert Visit(height, es, |pre|, hp, over) == Visit(height, pre' + todo[1..], |pre'|, hp, over);
    VisitIsWalk(height, pre', todo[1..], hp, over);
    var rest := Walk(height, todo[1..]);
    assert pre' + rest.survivors == pre + ([d] + rest.survivors);
  }

  /** The step of `VisitIsWalk` for an enemy at the bottom: it is removed and
      its successor is stepped over. */
  lemma {:induction false} VisitRemoves(height: int, pre: seq<Enemy>, todo: seq<Enemy>, hp: int, over: bool)
    requires |todo| > 0 && AtBottom(height, todo[0])
    ensures var w := Walk(height, todo);
      Visit(height, pre + todo, |pre|, hp, over)
        == Outcome(pre + w.survivors, hp - w.hits, over || (w.hits > 0 && hp - w.hits <= 0))
    decreases |todo|, 0
  {
    var over' := over || hp - 1 <= 0;
    RemoveAtSeam(height, pre, todo, hp, over);
    if |todo| == 1 {
      assert pre + todo[1..] == pre;
    } else {
      var pre' := pre + [todo[1]];
      SkipAtSeam(pre, todo);
      VisitIsWalk(height, pre', todo[2..], hp - 1, over');
      var rest := Walk(height, todo[2..]);
      Regroup(pre, todo[1], rest.survivors);
    }
  }

  /** The enemy at the seam, at the bottom, is spliced out after its move, and
      the walk goes on one index further. */
  lemma RemoveAtSeam(height: int, pre: seq<Enemy>, todo: seq<Enemy>, hp: int, over: bool)
    requires |todo| > 0 && AtBottom(height, todo[0])
    ensures Visit(height, pre + todo, |pre|, hp, over)
         == Visit(height, pre + todo[1..], |pre| + 1, hp - 1, over || hp - 1 <= 0)
  {
    var es := pre + todo;
    assert es[|pre|] == todo[0];
    SpliceAfterUpdate(es, |pre|, Descend(todo[0]));
    SpliceAtSeam(pre, todo);
  }

  lemma SkipAtSeam<T>(pre: seq<T>, todo: seq<T>)
    requires |todo| > 1
    ensures pre + todo[1..] == pre + [todo[1]] + todo[2..]
    ensures |pre + [todo[1]]| == |pre| + 1
  {
    assert todo[1..] == [todo[1]] + todo[2..];
  }

  /** Each enemy that left the array cost the player exactly one hp, and the
      game-over alert is raised exactly when one did and hp ended at or below
      zero. */
  lemma MoveEnemiesCharges(height: int, es: seq<Enemy>, hp: int)
    ensures var r := MoveEnemies(height, es, hp);
      && r.enemies == Walk(height, es).survivors
      && r.hp == hp - (|es| - |r.enemies|)
      && (r.gameOver <==> |r.enemies| < |es| && r.hp <= 0)
  {
    VisitIsWalk(height, [], es, hp, false);
    assert [] + es == es;
  }

  /** When no enemy before the last one is at the bottom, nothing is stepped
      over and the pass is the intended one. */
  lemma {:induction false} WalkAgreesWithFilter(height: int, es: seq<Enemy>)
    requires forall i :: 0 <= i < |es| - 1 ==> !AtBottom(height, es[i])
    ensures Walk(height, es) == Filter(height, es)
    decreases |es|
  {
    if |es| > 1 {
      assert !AtBottom(height, es[0]);
      WalkAgreesWithFilter(height, es[1..]);
    }
  }

  /** Stepping over enemies never makes the player lose more hp than intended. */
  lemma {:induction false} WalkUndercounts(height: int, es: seq<Enemy>)
    ensures Walk(height, es).hits <= Filter(height, es).hits
    decreases |es|
  {
    if |es| > 0 {
      if !AtBottom(height, es[0]) {
        WalkUndercounts(height, es[1..]);
      } else if |es| > 1 {
        WalkUndercounts(height, es[2..]);
        assert es[1..][1..] == es[2..];
      }
    }
  }

  /** A pass keeps every surviving enemy well formed. */
  lemma {:induction false} WalkKeepsWellFormed(height: int, es: seq<Enemy>)
    requires AllWellFormed(es)
    ensures AllWellFormed(Walk(height, es).survivors)
    decreases |es|
  {
    if |es| > 0 {
      if !AtBottom(height, es[0]) {
        WalkKeepsWellFormed(height, es[1..]);
      } else if |es| > 1 {
        WalkKeepsWellFormed(height, es[2..]);
      }
    }
  }

  /** Two enemies at the bottom, one after the other: the second is stepped
      over, so it stays, unmoved, and the player loses one hp instead of two. */
  lemma TwoAtBottomExample()
    ensures var a := Enemy(Normal, 3, 3, 0, 560);
      var b := Enemy(Fast, 1, 1, 100, 560);
      && MoveEnemies(600, [a, b], 3) == Outcome([b], 2, false)
      && Filter(600, [a, b]) == Walked([], 2)
  {
    var a := Enemy(Normal, 3, 3, 0, 560);
    var b := Enemy(Fast, 1, 1, 100, 560);
    MoveEnemiesCharges(600, [a, b], 3);
    assert [a, b][2..] == [];
    assert [a, b][1..][1..] == [];
  }

  /** The bottom test reads the top from before the move: an enemy whose lower
      edge is one pixel above the bottom descends past it this tick, stays in
      the array and costs nothing. */
  lemma PreMoveBottomExample()
    ensures var e := Enemy(Normal, 3, 3, 0, 549);
      MoveEnemies(600, [e], 3) == Outcome([Descend(e)], 3, false)
  {
    var e := Enemy(Normal, 3, 3, 0, 549);
    MoveEnemiesCharges(600, [e], 3);
    assert [e][1..] == [];
  }
}

=== FILE: entities.dfy ===
/** The Entity Registry's records: enemy kinds and their table, enemies, bullets,
    and the axis-aligned boxes the collision test compares. All positions are
    integer pixels in one frame whose origin is the container's top-left corner. */
module Entities {

  datatype Kind = Normal | Fast | Tank | Explosive

  /** The container and sprite sizes that the browser's layout would supply. */
  datatype Config = Config(width: int, height: int, playerWidth: int, bulletWidth: nat, bulletHeight: nat)

  /** Enemies are laid out as 50-pixel squares; the spawn range and the bottom
      test both use this size. */
  const EnemySize := 50

  /** A bullet rises this many pixels per tick. */
  const BulletStep := 5

  datatype Enemy = Enemy(kind: Kind, hp: int, maxHp: int, left: int, top: int)

  datatype Bullet = Bullet(left: int, top: int)

  /** A screen rectangle, edges included as the browser reports them. */
  datatype Box = Box(left: int, right: int, top: int, bottom: int)

  /** The hit points an enemy of each kind starts with. */
  function MaxHpOf(k: Kind): (r: int)
    ensures 1 <= r <= 5
  {
    match k
    case Normal => 3
    case Fast => 1
    case Tank => 5
    case Explosive => 2
  }

  /** Pixels per tick an enemy of each kind descends; only `fast` and `tank`
      enemies differ from the default. */
  function SpeedOf(k: Kind): (r: int)
    ensures r > 0
  {
    match k
    case Fast => 4
    case Tank => 1
    case _ => 2
  }

  /** The literals 0.3 and 0.7 as the script holds them: the nearest binary64
      values, both a little below the decimals. 0.5 is exact. */
  const Threshold03: real := 5404319552844595.0 / 18014398509481984.0
  const Threshold05: real := 0.5
  const Threshold07: real := 3152519739159347.0 / 4503599627370496.0

  /** The kind chosen by a roll in [0, 1): cumulative thresholds at the
      binary64 values of 0.3, 0.5 and 0.7, compared exactly. */
  function KindFor(roll: real): (k: Kind)
    requires 0.0 <= roll < 1.0
    ensures k == Normal <==> roll < Threshold03
    ensures k == Fast <==> Threshold03 <= roll < Threshold05
    ensures k == Tank <==> Threshold05 <= roll < Threshold07
    ensures k == Explosive <==> Threshold07 <= roll
  {
    if roll < Threshold03 then Normal
    else if roll < Threshold05 then Fast
    else if roll < Threshold07 then Tank
    else Explosive
  }

  /** A roll equal to the literal 0.7 as stored is already explosive, and one
      equal to the stored 0.3 is already fast; the decimals themselves lie
      just above the thresholds. */
  lemma KindForAtLiterals()
    ensures Threshold03 < 0.3 && Threshold07 < 0.7
    ensures KindFor(Threshold03) == Fast && KindFor(Threshold07) == Explosive
    ensures KindFor(Threshold07 - 1.0 / 9007199254740992.0) == Tank
  {
  }

  /** An enemy fresh from the spawner: full health, on the top edge. */
  function Spawn(kind: Kind, left: int): (e: Enemy)
    ensures e.kind == kind && e.left == left
    ensures e.hp == e.maxHp == MaxHpOf(kind)
    ensures e.top == 0
  {
    Enemy(kind, MaxHpOf(kind), MaxHpOf(kind), left, 0)
  }

  /** The shape every live enemy keeps: alive, never above its kind's maximum,
      inside the container's left edge and below its top edge. */
  predicate WellFormed(e: Enemy)
  {
    && 0 < e.hp <= e.maxHp
    && e.maxHp == MaxHpOf(e.kind)
    && 0 <= e.left
    && 0 <= e.top
  }

  predicate AllWellFormed(es: seq<Enemy>)
  {
    forall i :: 0 <= i < |es| ==> WellFormed(es[i])
  }

  /** One tick of descent. */
  function Descend(e: Enemy): (r: Enemy)
    ensures r.kind == e.kind && r.hp == e.hp && r.maxHp == e.maxHp && r.left == e.left
    ensures r.top > e.top
    ensures WellFormed(e) ==> WellFormed(r)
  {
    e.(top := e.top + SpeedOf(e.kind))
  }

  /** The pre-move bottom test: the enemy's lower edge has reached the container's. */
  predicate AtBottom(height: int, e: Enemy)
  {
    e.top + EnemySize >= height
  }

  function EnemyBox(e: Enemy): Box
  {
    Box(e.left, e.left + EnemySize, e.top, e.top + EnemySize)
  }

  function BulletBox(cfg: Config, b: Bullet): Box
  {
    Box(b.left, b.left + cfg.bulletWidth, b.top, b.top + cfg.bulletHeight)
  }

  /** What the browser reports for a node that is no longer in the page. */
  const Detached := Box(0, 0, 0, 0)

  /** The collision test: strict on all four sides. */
  predicate Overlap(a: Box, b: Box)
  {
    a.left < b.right && a.right > b.left && a.top < b.bottom && a.bottom > b.top
  }

  /** The pixel at column `x`, row `y` lies inside the box. */
  predicate Covers(a: Box, x: int, y: int)
  {
    a.left <= x < a.right && a.top <= y < a.bottom
  }

  /** Spawning a kind gives exactly the table's hit points and a well-formed enemy. */
  lemma SpawnTable(left: int)
    requires 0 <= left
    ensures Spawn(Normal, left).hp == 3 && Spawn(Fast, left).hp == 1
    ensures Spawn(Tank, left).hp == 5 && Spawn(Explosive, left).hp == 2
    ensures forall k: Kind :: WellFormed(Spawn(k, left))
  {
  }

  /** Fast enemies fall 4 pixels, tanks 1, every other kind (explosive included) 2. */
  lemma DescentTable(e: Enemy)
    ensures e.kind == Fast ==> Descend(e).top == e.top + 4
    ensures e.kind == Tank ==> Descend(e).top == e.top + 1
    ensures e.kind == Normal || e.kind == Explosive ==> Descend(e).top == e.top + 2
  {
  }

  /** The test does not depend on which box is the bullet's. */
  lemma OverlapSymmetric(a: Box, b: Box)
    ensures Overlap(a, b) <==> Overlap(b, a)
  {
  }

  /** Boxes that share only an edge do not collide. */
  lemma TouchingDoesNotOverlap(a: Box, b: Box)
    requires a.right == b.left || a.bottom == b.top
    ensures !Overlap(a, b)
  {
  }

  /** The box covers at least one pixel. */
  predicate NonEmpty(a: Box)
  {
    a.left < a.right && a.top < a.bottom
  }

  /** Two boxes that each cover a pixel collide exactly when some pixel lies
      in both. */
  lemma OverlapSharesPixel(a: Box, b: Box)
    requires NonEmpty(a) && NonEmpty(b)
    ensures Overlap(a, b) <==> exists x, y :: Covers(a, x, y) && Covers(b, x, y)
  {
    if Overlap(a, b) {
      var x := if a.left < b.left then b.left else a.left;
      var y := if a.top < b.top then b.top else a.top;
      assert Covers(a, x, y) && Covers(b, x, y);
    }
  }

  /** A node taken out of the page collides with no enemy inside the container. */
  lemma DetachedHitsNothing(e: Enemy)
    requires 0 <= e.left
    ensures !Overlap(Detached, EnemyBox(e))
  {
  }
}

=== FILE: frames.dfy ===
/** The game loop's frame requests and the pause toggle.

    `gameLoop` runs one tick and asks for the next frame while the game is not
    paused; a paused call asks for nothing, which ends its chain. The HUD toggle
    flips the flag and, when it un-pauses, asks for a frame of its own. The
    state below is the flag and the number of `gameLoop` calls waiting for the
    next frame.

    As written, the toggle asks for a frame even while the previous chain's
    request is still waiting: pausing and un-pausing before the next frame
    leaves two chains, and the game then ticks twice per frame for good
    (`StackedChains`). `Toggle` asks only when no request is waiting, which keeps
    exactly one tick per running frame (`RunSettled`). */
module Frames {

  datatype Loop = Loop(paused: bool, queued: nat)

  /** What one frame does: the loop state after it, and how many ticks ran. */
  datatype FrameOut = FrameOut(loop: Loop, ticks: nat)

  /** A user's press on the HUD toggle, or a frame. */
  datatype Event = Press | Paint

  /** The page's start: running, one frame requested. */
  const Boot := Loop(false, 1)

  /** The toggle handler as written: un-pausing always requests a frame. */
  function ToggleAsWritten(l: Loop): (r: Loop)
    ensures r.paused == !l.paused
    ensures r.queued == l.queued + (if r.paused then 0 else 1)
  {
    Loop(!l.paused, if l.paused then l.queued + 1 else l.queued)
  }

  /** The toggle handler with the request made only when none is waiting. */
  function Toggle(l: Loop): (r: Loop)
    ensures r.paused == !l.paused
    ensures r.queued >= l.queued
    ensures r.queued == l.queued || (!r.paused && l.queued == 0 && r.queued == 1)
  {
    Loop(!l.paused, if l.paused && l.queued == 0 then 1 else l.queued)
  }

  /** One frame: every waiting `gameLoop` call runs. While running, each ticks
      and asks again; while paused, each returns without asking. */
  function Frame(l: Loop): (f: FrameOut)
    ensures f.loop.paused == l.paused
    ensures l.paused ==> f.ticks == 0 && f.loop.queued == 0
    ensures !l.paused ==> f.ticks == l.queued && f.loop == l
  {
    if l.paused then FrameOut(Loop(true, 0), 0) else FrameOut(l, l.queued)
  }

  /** At most one chain, and exactly one while running. */
  predicate Settled(l: Loop)
  {
    l.queued <= 1 && (!l.paused ==> l.queued == 1)
  }

  /** `n` presses of the toggle as written, with no frame in between. */
  function PressesAsWritten(l: Loop, n: nat): (r: Loop)
    ensures r.queued >= l.queued
    decreases n
  {
    if n == 0 then l else PressesAsWritten(ToggleAsWritten(l), n - 1)
  }

  /** The loop state after a run of events under the corrected toggle. */
  function Run(l: Loop, evs: seq<Event>): Loop
    decreases |evs|
  {
    if |evs| == 0 then l
    else
      var next := if evs[0] == Press then Toggle(l) else Frame(l).loop;
      Run(next, evs[1..])
  }

  lemma ToggleKeepsSettled(l: Loop)
    requires Settled(l)
    ensures Settled(Toggle(l))
  {
  }

  /** Under the corrected toggle every frame of a settled loop runs exactly one
      tick while running and none while paused. */
  lemma FrameTicksOnce(l: Loop)
    requires Settled(l)
    ensures Settled(Frame(l).loop)
    ensures Frame(l).ticks == if l.paused then 0 else 1
  {
  }

  /** Whatever the user presses and however frames fall, the loop stays settled. */
  lemma {:induction false} RunSettled(l: Loop, evs: seq<Event>)
    requires Settled(l)
    ensures Settled(Run(l, evs))
    decreases |evs|
  {
    if |evs| > 0 {
      var next := if evs[0] == Press then Toggle(l) else Frame(l).loop;
      if evs[0] == Press {
        ToggleKeepsSettled(l);
      } else {
        FrameTicksOnce(l);
      }
      RunSettled(next, evs[1..]);
    }
  }

  /** As written, each pause-and-resume pair pressed between two frames adds
      a chain: after `n` pairs a running frame ticks `n + 1` times. */
  lemma {:induction false} StackedChains(q: nat, n: nat)
    ensures PressesAsWritten(Loop(false, q), 2 * n) == Loop(false, q + n)
    decreases n
  {
    if n > 0 {
      assert ToggleAsWritten(ToggleAsWritten(Loop(false, q))) == Loop(false, q + 1);
      assert PressesAsWritten(Loop(false, q), 2 * n)
          == PressesAsWritten(Loop(false, q + 1), 2 * (n - 1));
      StackedChains(q + 1, n - 1);
    }
  }

  /** The smallest case: two quick presses from the start, then a frame that
      runs two ticks, where the corrected toggle runs one. */
  lemma DoublePressExample()
    ensures Frame(ToggleAsWritten(ToggleAsWritten(Boot))).ticks == 2
    ensures Frame(Toggle(Toggle(Boot))).ticks == 1
  {
  }
}

=== FILE: game.dfy ===
/** The session as one immutable record, and the events that change it: a
    frame, a spawn-timer firing, a shot, a drag and a press on the HUD toggle.

    Game over is terminal: once the alert has been raised the page reloads, so
    no later event changes the record. The tick during which it is raised runs
    to its end, as the alert and the reload return to the running callback. */
module Game {
  import opened Progression
  import opened Entities
  import opened Descent
  import opened Combat
  import opened Frames

  datatype Session = Session(
    stats: Stats,
    score: int,
    enemies: seq<Enemy>,
    bullets: seq<Bullet>,
    playerLeft: int,
    loop: Loop,
    over: bool)

  /** The page as loaded. */
  function Begin(playerLeft: int): (r: Session)
    ensures Valid(r)
    ensures r.enemies == [] && r.bullets == [] && r.score == 0
    ensures r.stats.level == 1 && r.stats.hp == r.stats.maxHp == 3 && r.stats.xp == 0
    ensures !r.loop.paused && !r.over && r.playerLeft == playerLeft
  {
    Session(Start, 0, [], [], playerLeft, Boot, false)
  }

  /** The invariants the game keeps: a consistent progression record, hp never
      above its maximum and at or below zero exactly when the game is over,
      only well-formed enemies, a score made of whole kills, and one chain of
      frame requests. */
  predicate Valid(s: Session)
  {
    && Consistent(s.stats)
    && s.stats.maxHp == Start.maxHp
    && s.stats.hp <= s.stats.maxHp
    && (s.over <==> s.stats.hp <= 0)
    && AllWellFormed(s.enemies)
    && 0 <= s.score
    && s.score % KillScore == 0
    && Settled(s.loop)
  }

  /** The body of `gameLoop` when not paused: `moveEnemies`, then `moveBullets`. */
  function Tick(cfg: Config, s: Session): (r: Session)
    ensures r.playerLeft == s.playerLeft && r.loop == s.loop
    ensures |r.enemies| <= |s.enemies| && |r.bullets| <= |s.bullets|
    ensures r.stats.hp <= s.stats.hp
    ensures r.score >= s.score
  {
    if s.over then s
    else
      var m := MoveEnemies(cfg.height, s.enemies, s.stats.hp);
      MoveEnemiesCharges(cfg.height, s.enemies, s.stats.hp);
      var a := MoveBullets(cfg, Arena(s.bullets, m.enemies, s.stats.(hp := m.hp), s.score));
      s.(stats := a.stats, score := a.score, enemies := a.enemies, bullets := a.bullets, over := m.gameOver)
  }

  function Ticks(cfg: Config, s: Session, n: nat): (r: Session)
    ensures r.loop == s.loop && r.playerLeft == s.playerLeft
    ensures r.score >= s.score
    decreases n
  {
    if n == 0 then s else Ticks(cfg, Tick(cfg, s), n - 1)
  }

  /** A frame: every waiting `gameLoop` call runs. */
  function OnFrame(cfg: Config, s: Session): (r: Session)
    ensures r.loop == Frame(s.loop).loop || s.over
  {
    if s.over then s
    else
      var f := Frame(s.loop);
      Ticks(cfg, s.(loop := f.loop), f.ticks)
  }

  /** The HUD toggle, with the frame request made only when none is waiting. */
  function TogglePause(s: Session): (r: Session)
    ensures !s.over ==> r.loop.paused == !s.loop.paused
    ensures r.enemies == s.enemies && r.bullets == s.bullets && r.stats == s.stats && r.score == s.score
    ensures r.playerLeft == s.playerLeft && r.over == s.over
  {
    if s.over then s else s.(loop := Toggle(s.loop))
  }

  /** The spawn timer fires, whether or not the game is paused; the kind and the
      left edge are the values the random draws produced. */
  function OnSpawn(s: Session, kind: Kind, left: int): (r: Session)
    ensures !s.over ==> r.enemies == s.enemies + [Spawn(kind, left)]
    ensures r.bullets == s.bullets && r.stats == s.stats && r.loop == s.loop
    ensures r.score == s.score && r.playerLeft == s.playerLeft && r.over == s.over
  {
    if s.over then s else s.(enemies := s.enemies + [Spawn(kind, left)])
  }

  /** A shot: a bullet is appended at the given origin. */
  function Fire(s: Session, left: int, top: int): (r: Session)
    ensures !s.over ==> r.bullets == s.bullets + [Bullet(left, top)]
    ensures r.enemies == s.enemies && r.stats == s.stats && r.loop == s.loop
    ensures r.score == s.score && r.playerLeft == s.playerLeft && r.over == s.over
  {
    if s.over then s else s.(bullets := s.bullets + [Bullet(left, top)])
  }

  /** The drag handlers' clamp: `max(0, min(x, width - playerWidth))`. */
  function ClampX(cfg: Config, x: int): (r: int)
    ensures 0 <= r
    ensures cfg.playerWidth <= cfg.width ==> r <= cfg.width - cfg.playerWidth
    ensures 0 <= x <= cfg.width - cfg.playerWidth ==> r == x
    ensures r == 0 || r == x || r == cfg.width - cfg.playerWidth
    ensures cfg.width < cfg.playerWidth ==> r == 0
  {
    var m := if x < cfg.width - cfg.playerWidth then x else cfg.width - cfg.playerWidth;
    if 0 < m then m else 0
  }

  /** A drag moves the player to the clamped position. */
  function Drag(cfg: Config, s: Session, x: int): (r: Session)
    ensures !s.over ==> r.playerLeft == ClampX(cfg, x)
    ensures r.enemies == s.enemies && r.bullets == s.bullets && r.stats == s.stats
    ensures r.score == s.score && r.loop == s.loop && r.over == s.over
  {
    if s.over then s else s.(playerLeft := ClampX(cfg, x))
  }

  /** The clamp picks the allowed position nearest to the pointer. */
  lemma ClampIsNearest(cfg: Config, x: int, y: int)
    requires cfg.playerWidth <= cfg.width
    requires 0 <= y <= cfg.width - cfg.playerWidth
    ensures var r := ClampX(cfg, x);
      (if r <= x then x - r else r - x) <= (if y <= x then x - y else y - x)
  {
  }

  /** Clamping twice is clamping once. */
  lemma ClampIdempotent(cfg: Config, x: int)
    requires cfg.playerWidth <= cfg.width
    ensures ClampX(cfg, ClampX(cfg, x)) == ClampX(cfg, x)
  {
  }

  /** Dragging further right never moves the player further left. */
  lemma ClampMonotone(cfg: Config, x: int, y: int)
    requires x <= y
    ensures ClampX(cfg, x) <= ClampX(cfg, y)
  {
  }

  lemma BeginValid(playerLeft: int)
    ensures Valid(Begin(playerLeft))
  {
  }

  /** A tick keeps every invariant; in particular the game is over exactly when
      hp has reached zero. */
  lemma TickKeepsValid(cfg: Config, s: Session)
    requires Valid(s)
    ensures Valid(Tick(cfg, s))
  {
    if !s.over {
      var m := MoveEnemies(cfg.height, s.enemies, s.stats.hp);
      MoveEnemiesCharges(cfg.height, s.enemies, s.stats.hp);
      WalkKeepsWellFormed(cfg.height, s.enemies);
      var a0 := Arena(s.bullets, m.enemies, s.stats.(hp := m.hp), s.score);
      VolleyKeepsArena(cfg, a0);
    }
  }

  /** The bullet tick keeps the enemies well formed, the stats consistent with
      hp untouched, and the score a non-negative multiple of ten. */
  lemma VolleyKeepsArena(cfg: Config, a0: Arena)
    requires AllWellFormed(a0.enemies) && Consistent(a0.stats)
    requires 0 <= a0.score && a0.score % KillScore == 0
    ensures var a := MoveBullets(cfg, a0);
      && AllWellFormed(a.enemies) && Consistent(a.stats)
      && a.stats.hp == a0.stats.hp && a.stats.maxHp == a0.stats.maxHp
      && 0 <= a.score && a.score % KillScore == 0
  {
    var a := MoveBullets(cfg, a0);
    var kills := |a0.enemies| - |a.enemies|;
    assert AllWellFormed(a.enemies) by {
      VolleyOneHpPerBullet(cfg, a0, 0);
    }
    assert Consistent(a.stats) by {
      GainEachKeepsConsistent(a0.stats, KillXP, kills);
    }
    WholeKills(a0.score, kills);
  }

  lemma WholeKills(score: int, kills: nat)
    requires 0 <= score && score % KillScore == 0
    ensures 0 <= score + KillScore * kills && (score + KillScore * kills) % KillScore == 0
  {
  }

  /** Every enemy that leaves the array in a tick either reached the bottom and
      cost the player one hp, or was destroyed and earned ten points. */
  lemma TickAccounts(cfg: Config, s: Session)
    requires !s.over
    ensures var r := Tick(cfg, s);
      |s.enemies| - |r.enemies| == (s.stats.hp - r.stats.hp) + (r.score - s.score) / KillScore
    ensures (Tick(cfg, s).score - s.score) % KillScore == 0
  {
    var m := MoveEnemies(cfg.height, s.enemies, s.stats.hp);
    MoveEnemiesCharges(cfg.height, s.enemies, s.stats.hp);
  }

  lemma {:induction false} TicksKeepValid(cfg: Config, s: Session, n: nat)
    requires Valid(s)
    ensures Valid(Ticks(cfg, s, n))
    decreases n
  {
    if n > 0 {
      TickKeepsValid(cfg, s);
      TicksKeepValid(cfg, Tick(cfg, s), n - 1);
    }
  }

  lemma OnFrameKeepsValid(cfg: Config, s: Session)
    requires Valid(s)
    ensures Valid(OnFrame(cfg, s))
  {
    if !s.over {
      FrameTicksOnce(s.loop);
      TicksKeepValid(cfg, s.(loop := Frame(s.loop).loop), Frame(s.loop).ticks);
    }
  }

  lemma EventsKeepValid(cfg: Config, s: Session, kind: Kind, left: int, top: int, x: int)
    requires Valid(s)
    requires 0 <= left
    ensures Valid(TogglePause(s))
    ensures Valid(OnSpawn(s, kind, left))
    ensures Valid(Fire(s, left, top))
    ensures Valid(Drag(cfg, s, x))
  {
    if !s.over {
      ToggleKeepsSettled(s.loop);
      SpawnTable(left);
    }
  }

  /** While running, a frame is exactly one tick. */
  lemma RunningFrameIsOneTick(cfg: Config, s: Session)
    requires Valid(s)
    requires !s.loop.paused
    ensures OnFrame(cfg, s) == Tick(cfg, s)
  {
  }

  /** While paused, a frame moves nothing: enemies, bullets, stats and score are
      as they were, and the pending request has lapsed. */
  lemma PausedFrameFreezes(cfg: Config, s: Session)
    requires Valid(s)
    requires s.loop.paused && !s.over
    ensures OnFrame(cfg, s) == s.(loop := Loop(true, 0))
  {
  }

  /** Resuming continues from the frozen positions with one tick on the next
      frame, however many frames passed while paused. */
  lemma ResumeTicksOnce(cfg: Config, s: Session)
    requires Valid(s)
    requires s.loop.paused && !s.over
    ensures OnFrame(cfg, TogglePause(s)) == Tick(cfg, s.(loop := Boot))
  {
  }

  /** A tick without a hit is the enemy pass followed by the bullet pass over
      the enemies as they stand after their descent: survivors of `Walk`, hp
      lowered by its bottom hits, bullets as `Fly` leaves them. */
  lemma TickWithoutHits(cfg: Config, s: Session)
    requires Valid(s) && !s.over
    requires NoHits(cfg, s.bullets, Walk(cfg.height, s.enemies).survivors)
    ensures var w := Walk(cfg.height, s.enemies);
      Tick(cfg, s) == s.(enemies := w.survivors, bullets := Fly(s.bullets),
                         stats := s.stats.(hp := s.stats.hp - w.hits),
                         over := w.hits > 0 && s.stats.hp - w.hits <= 0)
  {
    var w := Walk(cfg.height, s.enemies);
    var hp := s.stats.hp - w.hits;
    assert MoveEnemies(cfg.height, s.enemies, s.stats.hp) == Outcome(w.survivors, hp, w.hits > 0 && hp <= 0) by {
      VisitIsWalk(cfg.height, [], s.enemies, s.stats.hp, false);
      assert [] + s.enemies == s.enemies;
    }
    var a0 := Arena(s.bullets, w.survivors, s.stats.(hp := hp), s.score);
    assert MoveBullets(cfg, a0) == a0.(bullets := Fly(s.bullets)) by {
      WalkKeepsWellFormed(cfg.height, s.enemies);
      MoveBulletsWithoutHits(cfg, a0);
    }
  }

  /** After game over no event changes the session. */
  lemma GameOverIsTerminal(cfg: Config, s: Session, kind: Kind, left: int, top: int, x: int)
    requires s.over
    ensures OnFrame(cfg, s) == s && TogglePause(s) == s
    ensures OnSpawn(s, kind, left) == s && Fire(s, left, top) == s && Drag(cfg, s, x) == s
  {
  }

  /** With one hp left, an enemy at the bottom ends the game in the next tick,
      even with no bullet in flight. */
  lemma LastHpExample(cfg: Config)
    requires cfg.height == 600
    ensures var s := Begin(0).(stats := Start.(hp := 1), enemies := [Enemy(Tank, 5, 5, 10, 550)]);
      var r := Tick(cfg, s);
      r.over && r.stats.hp == 0 && r.enemies == []
  {
    var e := Enemy(Tank, 5, 5, 10, 550);
    MoveEnemiesCharges(600, [e], 1);
    assert [e][1..] == [];
  }
}

=== FILE: progression.dfy ===
/** The Progression Tracker: the player's hp/xp/level record, the single-threshold
    level-up rule of `gainXP` and the treadmill speed it derives from the level. */
module Progression {

  /** The scroll speed of the background treadmill, in seconds. Until the first
      level-up the stylesheet's own value is in force. */
  datatype Treadmill = StylesheetDefault | Seconds(seconds: int)

  /** `playerStats`, together with the treadmill speed `gainXP` last wrote. */
  datatype Stats = Stats(hp: int, maxHp: int, xp: int, level: int, xpToNextLevel: int, treadmill: Treadmill)

  /** The record a fresh page starts from. */
  const Start := Stats(3, 3, 0, 1, 10, StylesheetDefault)

  /** How much the threshold grows at each level-up. */
  const LevelStep := 10

  /** The treadmill never scrolls faster than one loop in this many seconds. */
  const FastestTreadmill := 5

  /** xp lies below the threshold, and the threshold is ten per level. */
  predicate Normalised(s: Stats)
  {
    && 1 <= s.level
    && 0 <= s.xp < s.xpToNextLevel
    && s.xpToNextLevel == LevelStep * s.level
  }

  /** The treadmill value agrees with the level: the stylesheet's until the first
      level-up, the derived speed afterwards. */
  predicate TreadmillShown(s: Stats)
  {
    if s.level == 1 then s.treadmill == StylesheetDefault
    else s.treadmill == Seconds(TreadmillSpeed(s.level))
  }

  predicate Consistent(s: Stats)
  {
    Normalised(s) && TreadmillShown(s)
  }

  /** Gaining `amount` reaches the current threshold. */
  predicate LevelsUp(s: Stats, amount: int)
  {
    s.xp + amount >= s.xpToNextLevel
  }

  /** `max(15 - level, 5)`: the treadmill speed for a level. */
  function TreadmillSpeed(level: int): (r: int)
    ensures r >= FastestTreadmill
    ensures r >= 15 - level
    ensures r == FastestTreadmill || r == 15 - level
  {
    if 15 - level > FastestTreadmill then 15 - level else FastestTreadmill
  }

  /** `gainXP(amount)`: one threshold test (an `if`, not a loop); a level-up
      discards whatever xp went past the threshold. */
  function GainXP(s: Stats, amount: int): (r: Stats)
    ensures r.hp == s.hp && r.maxHp == s.maxHp
    ensures r.level == s.level + 1 <==> LevelsUp(s, amount)
    ensures r.level == s.level || r.level == s.level + 1
    ensures r.level == s.level ==> r.xp == s.xp + amount && r.xpToNextLevel == s.xpToNextLevel && r.treadmill == s.treadmill
    ensures r.level > s.level ==> r.xp == 0 && r.xpToNextLevel == s.xpToNextLevel + LevelStep
    ensures r.level > s.level ==> r.treadmill == Seconds(TreadmillSpeed(r.level))
  {
    var xp := s.xp + amount;
    if xp >= s.xpToNextLevel then
      s.(level := s.level + 1, xp := 0, xpToNextLevel := s.xpToNextLevel + LevelStep,
         treadmill := Seconds(TreadmillSpeed(s.level + 1)))
    else
      s.(xp := xp)
  }

  /** `gainXP(amount)` applied `n` times in a row. */
  function GainEach(s: Stats, amount: int, n: nat): (r: Stats)
    ensures r.hp == s.hp && r.maxHp == s.maxHp
    ensures s.level <= r.level <= s.level + n
    decreases n
  {
    if n == 0 then s else GainEach(GainXP(s, amount), amount, n - 1)
  }

  /** All experience earned over the run, counting each passed threshold in full. */
  function TotalXP(s: Stats): int
  {
    5 * s.level * (s.level - 1) + s.xp
  }

  /** A gain below the threshold changes xp only. */
  lemma GainBelowThreshold(s: Stats, amount: int)
    requires !LevelsUp(s, amount)
    ensures GainXP(s, amount) == s.(xp := s.xp + amount)
  {
  }

  /** `gainXP(0)` leaves a normalised record exactly as it was. */
  lemma GainZeroIsIdentity(s: Stats)
    requires Normalised(s)
    ensures GainXP(s, 0) == s
  {
  }

  /** A non-negative gain keeps xp below the threshold and the treadmill in step
      with the level. */
  lemma GainKeepsConsistent(s: Stats, amount: int)
    requires Consistent(s)
    requires amount >= 0
    ensures Consistent(GainXP(s, amount))
  {
  }

  /** Exactly the xp past the threshold is lost on a level-up, and nothing is
      lost otherwise: the remainder is discarded, not carried. */
  lemma GainDiscardsRemainder(s: Stats, amount: int)
    requires Normalised(s)
    ensures var r := GainXP(s, amount);
      TotalXP(r) == TotalXP(s) + amount - (if LevelsUp(s, amount) then s.xp + amount - s.xpToNextLevel else 0)
  {
    if LevelsUp(s, amount) {
      var l := s.level;
      assert 5 * (l + 1) * l == 5 * l * (l - 1) + 10 * l;
    }
  }

  /** However large the gain, one call raises the level by at most one. */
  lemma OneLevelPerGain(s: Stats, amount: int)
    requires Normalised(s)
    requires amount >= 2 * s.xpToNextLevel
    ensures GainXP(s, amount).level == s.level + 1
    ensures GainXP(s, amount).xp == 0
  {
  }

  /** A slower treadmill never follows a faster one as the level grows. */
  lemma TreadmillNonIncreasing(l1: int, l2: int)
    requires l1 <= l2
    ensures TreadmillSpeed(l2) <= TreadmillSpeed(l1)
  {
  }

  /** From level 10 on the treadmill stays at its fastest. */
  lemma TreadmillFloor(level: int)
    requires level >= 10
    ensures TreadmillSpeed(level) == FastestTreadmill
  {
  }

  /** Repeated gains compose. */
  lemma {:induction false} GainEachAdds(s: Stats, amount: int, n: nat, m: nat)
    ensures GainEach(GainEach(s, amount, n), amount, m) == GainEach(s, amount, n + m)
    decreases n
  {
    if n > 0 {
      GainEachAdds(GainXP(s, amount), amount, n - 1, m);
    }
  }

  /** Any number of non-negative gains keeps the record consistent. */
  lemma {:induction false} GainEachKeepsConsistent(s: Stats, amount: int, n: nat)
    requires Consistent(s)
    requires amount >= 0
    ensures Consistent(GainEach(s, amount, n))
    decreases n
  {
    if n > 0 {
      GainKeepsConsistent(s, amount);
      GainEachKeepsConsistent(GainXP(s, amount), amount, n - 1);
    }
  }
}
